=== FILE: README.md ===
# Storybook visual diff: verified model of the batch pipeline

This project models the sequential core of a GitHub Action that looks for
visual regressions in a Storybook catalog. The action reads the catalog's
story registry and flattens it into story records. Each record carries the
query string `selectedKind=<kind>&selectedStory=<name>`. The records are cut
into batches of ten. For every story, one screenshot is taken under the
baseline origin (`CONSTANT_URL`) and one under the candidate origin
(`VARIABLE_URL`). When `looks-same` reports a difference, a three-panel
composite (baseline | candidate | diff) is pushed onto the module-level
`images` list. A report is stacked and uploaded only when `images` is
non-empty. The model also covers two helpers of the action: the auto-scroll
stepping done before each screenshot, and the choice of the Chrome executable
by operating system.

Modules, one per component:

- `Batching` (`batching.dfy`): `chunk` as a pure function over sequences. It
  is built the way the source builds it, as a comprehension of clamped
  slices.
- `StoryList` (`stories.dfy`): the flattening in `getStories`, as a method
  with two nested loops, proved against a recursive specification. It also
  has a decoder for the query string, used to state what the query selects.
- `Scrolling` (`scrolling.dfy`): the `totalHeight` counter of `autoScroll`,
  as a loop.
- `ChromePath` (`chrome.dfy`): the branches of `getChromePath`.
- `Comparison` (`comparison.dfy`): URL and label construction, the
  `createCompareImage` layout descriptor, and the `checkStory` loop. The
  loop is a method of a `Collector` class whose `images` field stands for
  the module-level array.
- `Orchestration` (`orchestration.dfy`): the top-level async function:
  enumerate, `chunk(…, 10)`, check each batch, gate on `images.length > 0`.
- `Arith` and `Wrappers`: ceiling division, clamping, `Option`/`Result`.

The foreign collaborators are parameters. `createScreenshot` is a
deterministic function from URL to image. The `looksSame` verdict is a
predicate on two images. `createDiff` is a function of two images. Images
have an opaque type parameter. A composite is represented by the layout
descriptor that `merge-img` receives. `path.normalize` is a function
parameter. `os.type()`, `os.arch()` and `process.env` are a `Host` value.

Three facts about the code shape the model:
- A URL is the origin, then `?`, then the query.
- The `kind-name` label is only logged. It is not attached to the composite.
- The equality verdict and the diff image come from separate `looks-same`
  calls with different options (see "Left out").

## Model

| member | source | states |
|---|---|---|
| `Arith.CeilDiv` | lib/index.js:76 | `Math.ceil(n / d)`: the least natural `q` with `q * d >= n` |
| `Batching.Slice` | lib/index.js:76 | `array.slice(begin, end)` with clamped bounds: its length, and element `k` is element `begin + k` of the input |
| `Batching.Chunk` | lib/index.js:76 | `chunk(array, size)` for a positive size: `ceil(length / size)` groups, none longer than `size` |
| `Batching.ChunkCount` | lib/index.js:76 | the number of chunks is the ceiling of length over size, so the empty list gives no chunks, and only the empty list does |
| `Batching.ChunkSizes` | lib/index.js:76 | every chunk except the last has exactly `size` elements; the last has between 1 and `size` |
| `Batching.ChunkPrefixConcat` | lib/index.js:76 | the first `k` chunks joined are the first `min(k * size, length)` elements |
| `Batching.ChunkConcat` | lib/index.js:76 | joining all chunks in order gives back the input: nothing is lost, duplicated or reordered |
| `StoryList.Query` | lib/index.js:21 | the query is `selectedKind=`, the kind, `&selectedStory=`, the name, each at its own position and unescaped |
| `StoryList.Record` | lib/index.js:20-24 | a pushed record copies kind and name unchanged and carries their query as `url` |
| `StoryList.GetStories` | lib/index.js:13-27 | the nested `forEach` pushes build exactly the kind-major flattening of the registry |
| `StoryList.RecordsAt` | lib/index.js:17-24 | a kind contributes one record per story, in story order; each record copies kind and name and has `url == "selectedKind=" + kind + "&selectedStory=" + name` |
| `StoryList.FlattenLength` | lib/index.js:13-26 | the flat list has as many records as the kinds have stories in total |
| `StoryList.FlattenPrefix` | lib/index.js:14-26 | the records of the first `m` kinds form a prefix of the flat list |
| `StoryList.FlattenAt` | lib/index.js:13-26 | story `j` of kind `i` sits at position (stories of earlier kinds) + `j` and is that story's record: kind-major, then story order |
| `StoryList.FlattenWellFormed` | lib/index.js:17-24 | every flat record's url is the query of its own kind and name, and that pair comes from the registry |
| `StoryList.QueryRoundTrip` | lib/index.js:21 | when kind and name hold none of `&`, `#`, `+`, `%`, the query string reads back as exactly that kind and name |
| `StoryList.NameCutAtFirstStop` | lib/index.js:21 | for a plain kind, the name read back from the query is the name up to its first `&` or `#`, with `+` decoded: a name holding either is cut short, since nothing is escaped |
| `StoryList.QueryNameTruncated` | lib/index.js:21 | one instance: kind `Button` with name `Tom & Jerry` reads back as name `Tom ` |
| `StoryList.QueryCollision` | lib/index.js:21 | because nothing is escaped, two different kind/name pairs can produce the same query |
| `Scrolling.AutoScroll` | lib/index.js:30-47 | the loop stops after `max(1, ceil(scrollHeight / 100))` ticks; at exit `totalHeight` is that many times 100, is at least `scrollHeight`, and is below `scrollHeight + 100` when `scrollHeight > 0`; no earlier tick reached the height |
| `ChromePath.ProgramFilesVariable` | lib/index.js:83 | `PROGRAMFILES(X86)` exactly when the arch is `x64`, `PROGRAMFILES` otherwise |
| `ChromePath.Join` | lib/index.js:84 | `path.join` drops empty segments and never returns the empty string |
| `ChromePath.BrowserPath` | lib/index.js:79-89 | every branch assigns a non-empty path; the only failure is a Windows host whose Program Files variable is unset |
| `ChromePath.GetChromePath` | lib/index.js:78-96 | Linux gives `/usr/bin/google-chrome`, other non-Windows types the macOS app path, Windows `<programFiles>/Google/Chrome/Application/chrome.exe` with `PROGRAMFILES(X86)` on x64 and `PROGRAMFILES` otherwise, all normalised; the `TypeError` of line 95 is never thrown |
| `Comparison.CreateCompareImage` | index.js:49-58 | three panels in the order baseline, candidate, diff; every panel has `offsetY` 100, the second and third have `offsetX` 100, the first keeps 0; a 40 margin on all four sides |
| `Comparison.BaselineUrl` | index.js:62 | the baseline URL is the constant origin, `?`, then the story's query |
| `Comparison.CandidateUrl` | index.js:63 | the candidate URL is the variable origin, `?`, then the story's query |
| `Comparison.QueryStartsAfterOrigin` | index.js:62-63 | when an origin holds no `?` or `#`, the first `?` or `#` of its URL is the `?` right after the origin; when the story's query also holds no `#`, no `#` follows, so the query a browser reads is the story's whole query |
| `Comparison.Label` | index.js:64 | the label is the kind, a dash, then the name |
| `Comparison.UrlsShareQuery` | index.js:62-63 | for every story, the baseline and candidate URLs carry the same query after their origin and `?` |
| `Comparison.UrlsSelectStory` | index.js:62-63 | for a story whose kind and name hold none of `&`, `#`, `+`, `%`, the query in both URLs reads back as that kind and name |
| `Comparison.Check` | index.js:62-94 | a story yields a composite exactly when `looksSame` reports its two screenshots not equal; the composite holds baseline, candidate and their diff, in that order |
| `Comparison.DifferingBound` | index.js:70-94 | a batch adds at most one image per story |
| `Comparison.DifferingEmpty` | index.js:70-94 | a batch adds nothing exactly when every story in it is reported equal |
| `Comparison.DifferingSources` | index.js:70-94 | every added image is the composite of a story of the batch whose screenshots differ |
| `Comparison.DifferingComplete` | index.js:70-94 | every story of the batch whose screenshots differ adds its composite |
| `Comparison.DifferingCount` | index.js:70-94 | a batch adds exactly as many images as it has differing stories |
| `Comparison.DifferingAppend` | index.js:60-99 | checking two story lists one after the other adds the same images as checking them as one list |
| `Comparison.SameOriginNoImages` | index.js:62-63 | with the same origin on both sides and a reflexive `looksSame`, no image is ever added |
| `Comparison.Collector.constructor` | index.js:31 | `images` starts empty |
| `Comparison.Collector.CheckStory` | index.js:60-99 | stories are visited in batch order; only `images` changes; earlier entries stay in place and the batch's composites are appended after them |
| `Orchestration.AssembleReport` | index.js:129-130 | a report exists exactly when `images` is non-empty, and it stacks `images` in order |
| `Orchestration.Batches` | index.js:125 | `chunk(storyDetails, 10)`: each batch holds one to ten stories, and the batches joined in order are the story list |
| `Orchestration.CheckedPrefix` | index.js:127 | checking one more batch appends that batch's composites after those of the batches before it |
| `Orchestration.BatchesOfTen` | index.js:125 | the stories are cut into batches of ten (the last holds 1 to 10), and the batches joined are the story list |
| `Orchestration.Run` | index.js:112-146 | enumerate, batch by ten, check every batch, gate: the report holds the composites of exactly the differing stories, in story order, and is absent when none differ |
| `Orchestration.ReportWhenSomeDiffer` | index.js:129-146 | a report is built and uploaded exactly when some story differs, and it never holds more composites than there are stories |

## Left out

- Browser I/O is not modelled: Playwright navigation, the `page.evaluate` that reads the registry, screenshots, and the 100 ms `setInterval` timer. The registry is an input. A screenshot is `Tools.capture`, a deterministic function of the URL.
- Scrolling.AutoScroll: the document height is taken as fixed. The source re-reads `document.body.scrollHeight` on every tick, so lazy content that grows the page is not modelled. Neither is `window.scrollBy` itself.
- `createScreenshot` (lib/index.js:49-67) is not modelled beyond `Tools.capture`. A failed navigation there is logged and `core.setFailed` is called, but the screenshot is still taken. The model has no navigation failures.
- `screenshotPage` (lib/index.js:69-74) is unused and calls `createScreenshot` with the wrong arguments. It is not modelled.
- URL-special characters in kinds and names are not escaped by the source (lib/index.js:21, index.js:62-63). The catalog reads `&` and `#` as ending a value, `+` as a space and `%` as the start of an escape. The model's query reader handles `&`, `#` and `+` but does not decode percent escapes. So the model promises that a story's URL selects that story only when its kind and name hold none of these four characters, and `CONSTANT_URL` / `VARIABLE_URL` hold no `?` or `#` (a browser reads the query after the URL's first `?` and up to its first `#`). A space reads back unchanged once the browser has escaped it, and is not modelled either.
- The image libraries are not modelled: `looks-same` pixel comparison, `createDiff`, and `merge-img` composition and stacking. The options passed to `createDiff` (tolerance 2.5, highlight `#ff00ff`, anti-aliasing and caret ignored) are held inside the uninterpreted `Tools.createDiff`. The equality call at index.js:71 passes no options, so it runs with the library's defaults. The verdict and the highlighted diff can therefore disagree. The model cannot express this.
- Errors thrown inside the `looksSame` and `createDiff` callbacks (index.js:72, 85) are not modelled. They escape as uncaught exceptions rather than being isolated per story.
- Orchestration.Run: the batches are checked one after another, in batch order. In the source they run concurrently under `Promise.all` (index.js:127), so the order of `images`, and with it the stacking order of the report, is nondeterministic. The model proves that the collected images are exactly those of the differing stories. That fact does not depend on the order.
- Orchestration.Run: in the source, each comparison is a promise that nobody awaits (index.js:70). A push to `images` can therefore land after `checkStory` has returned, and even after the `images.length > 0` check. This is likely for the last story of the batch that finishes last. The model treats every comparison as finished when its batch finishes.
- Orchestration.Run: the model does not cover `exec.exec(build)`, browser launch (including the `getChromePath()` call), the browser context, or `browser.close()`.
- Writing the stacked report as a PNG (index.js:132-133) is not modelled. The S3 upload, the Octokit comment, `core.getInput`, `process.env` reads, `core.warning` and `core.setFailed` are host and network I/O, and are not modelled.
- ChromePath.GetChromePath: `path.join` is modelled only as joining non-empty segments with `/` (or giving `"."`). Its separator and its normalisation, like `path.normalize`, are left to the abstract `normalize` parameter. `process.env` is a case-sensitive map, whereas on Windows Node looks variable names up without regard to case.
- Batching.Chunk requires a positive size. With size 0 the source evaluates `Array(Infinity)` (or `Array(NaN)` for an empty list) and throws a `RangeError`. Non-integer sizes are not modelled.

=== FILE: arith.dfy ===
/** Integer helpers: clamping and the ceiling division behind `Math.ceil(n / d)`. */
module Arith {

  function Min(a: int, b: int): int { if a <= b then a else b }

  function Max(a: int, b: int): int { if a <= b then b else a }

  /** `Math.ceil(n / d)` for a natural `n` and a positive integer `d`: the least
      natural `q` with `q * d >= n`. */
  function CeilDiv(n: nat, d: nat): (q: nat)
    requires d > 0
    ensures q * d >= n
    ensures q == 0 || (q - 1) * d < n
  {
    var q := (n + d - 1) / d;
    assert n + d - 1 == q * d + (n + d - 1) % d;
    q
  }

  /** The two facts of `CeilDiv`'s contract determine the quotient. */
  lemma CeilDivUnique(n: nat, d: nat, q: nat)
    requires d > 0
    requires q * d >= n
    requires q == 0 || (q - 1) * d < n
    ensures q == CeilDiv(n, d)
  {
    var c := CeilDiv(n, d);
    if q < c {
      MulMono(q, c - 1, d);
    } else if c < q {
      MulMono(c, q - 1, d);
    }
  }

  /** Multiplication by a natural is monotone. */
  lemma MulMono(a: nat, b: nat, d: nat)
    requires a <= b
    ensures a * d <= b * d
  {
    assert b * d == a * d + (b - a) * d;
  }
}

=== FILE: batching.dfy ===
/** `chunk` of lib/index.js: the ordered story list cut into contiguous groups
    of a fixed size, the last of which may be shorter. */
module Batching {
  import opened Arith

  /** `Array.prototype.slice(begin, end)` for non-negative `begin` and `end`:
      both bounds are clamped to the length, and an end before the beginning
      gives the empty array. */
  function Slice<T>(a: seq<T>, begin: nat, end: nat): (r: seq<T>)
    ensures |r| == Max(0, Min(end, |a|) - Min(begin, |a|))
    ensures forall k :: 0 <= k < |r| ==> r[k] == a[begin + k]
  {
    var b, e := Min(begin, |a|), Min(end, |a|);
    if e <= b then [] else a[b..e]
  }

  /** `Array(Math.ceil(a.length / size)).fill().map((_, i) => i * size)
      .map(begin => a.slice(begin, begin + size))`. With `size == 0` the
      source builds `Array(Infinity)` (or `Array(NaN)`) and throws, so a
      positive size is required. */
  function Chunk<T>(a: seq<T>, size: nat): (r: seq<seq<T>>)
    requires size > 0
    ensures |r| == CeilDiv(|a|, size)
    ensures forall i :: 0 <= i < |r| ==> |r[i]| <= size
  {
    seq(CeilDiv(|a|, size), i requires 0 <= i => Slice(a, i * size, i * size + size))
  }

  /** The groups joined end to end, in order. */
  function Concat<T>(ss: seq<seq<T>>): seq<T>
  {
    if ss == [] then [] else Concat(ss[..|ss| - 1]) + ss[|ss| - 1]
  }

  /** There are exactly `ceil(|a| / size)` chunks, so none for the empty list. */
  lemma ChunkCount<T>(a: seq<T>, size: nat)
    requires size > 0
    ensures |Chunk(a, size)| * size >= |a|
    ensures |Chunk(a, size)| == 0 || (|Chunk(a, size)| - 1) * size < |a|
    ensures Chunk(a, size) == [] <==> a == []
  {
  }

  /** Every chunk but the last holds exactly `size` stories; the last holds
      between one and `size`. */
  lemma ChunkSizes<T>(a: seq<T>, size: nat)
    requires size > 0
    ensures forall i :: 0 <= i < |Chunk(a, size)| - 1 ==> |Chunk(a, size)[i]| == size
    ensures Chunk(a, size) != [] ==> 1 <= |Chunk(a, size)[|Chunk(a, size)| - 1]| <= size
  {
    var c := Chunk(a, size);
    var q := |c|;
    forall i | 0 <= i < q - 1
      ensures |c[i]| == size
    {
      MulMono(i + 1, q - 1, size);
      assert (i + 1) * size == i * size + size;
    }
    if q > 0 {
      assert (q - 1) * size + size == q * size;
    }
  }

  /** The first `k` chunks joined give back the first `k * size` stories. */
  lemma {:induction false} ChunkPrefixConcat<T>(a: seq<T>, size: nat, k: nat)
    requires size > 0
    requires k <= |Chunk(a, size)|
    ensures Concat(Chunk(a, size)[..k]) == a[..Min(k * size, |a|)]
  {
    var c := Chunk(a, size);
    if k == 0 {
      assert c[..0] == [];
    } else {
      ChunkPrefixConcat(a, size, k - 1);
      assert c[..k][..k - 1] == c[..k - 1];
      MulMono(k - 1, |c| - 1, size);
      assert (k - 1) * size + size == k * size;
      var lo, hi := (k - 1) * size, Min(k * size, |a|);
      assert c[k - 1] == a[lo..hi];
      assert a[..lo] + a[lo..hi] == a[..hi];
    }
  }

  /** Joining the chunks in order gives back the input: nothing is lost,
      duplicated or reordered. */
  lemma ChunkConcat<T>(a: seq<T>, size: nat)
    requires size > 0
    ensures Concat(Chunk(a, size)) == a
  {
    var c := Chunk(a, size);
    ChunkPrefixConcat(a, size, |c|);
    assert c[..|c|] == c;
    assert a[..|a|] == a;
  }
}

=== FILE: chrome.dfy ===
/** `getChromePath` of lib/index.js: the Chrome executable to launch, chosen
    by the host's operating system type. */
module ChromePath {
  import opened Wrappers

  /** What the function reads from the host: `os.type()`, `os.arch()` and `process.env`. */
  datatype Host = Host(osType: string, arch: string, env: map<string, string>)

  datatype LaunchError =
    /** `path.join` is handed `undefined` because the Program Files variable is unset: a `TypeError`. */
    | ProgramFilesUnset(variable: string)
    /** The `TypeError` thrown when no path was chosen. */
    | Unsupported(osType: string)

  const WINDOWS := "Windows_NT"
  const LINUX := "Linux"
  const LINUX_CHROME := "/usr/bin/google-chrome"
  const MAC_CHROME := "/Applications/Google Chrome.app/Contents/MacOS/Google Chrome"
  const WINDOWS_CHROME := "Google/Chrome/Application/chrome.exe"

  /** Chrome is a 32-bit application, so a 64-bit Windows keeps it under `PROGRAMFILES(X86)`. */
  function ProgramFilesVariable(arch: string): (v: string)
    ensures v == "PROGRAMFILES(X86)" <==> arch == "x64"
    ensures v == "PROGRAMFILES" <==> arch != "x64"
  {
    if arch == "x64" then "PROGRAMFILES(X86)" else "PROGRAMFILES"
  }

  /** `path.join(dir, file)` up to normalisation: empty segments are dropped and
      an all-empty join gives `"."`, so the result is never empty. */
  function Join(dir: string, file: string): (p: string)
    ensures p != ""
    ensures dir == "" && file != "" ==> p == file
    ensures dir != "" && file != "" ==> p == dir + "/" + file
  {
    if dir == "" && file == "" then "."
    else if dir == "" then file
    else if file == "" then dir
    else dir + "/" + file
  }

  /** The `browserPath` the three branches assign. */
  function BrowserPath(host: Host): (r: Result<string, LaunchError>)
    ensures r.Success? ==> r.value != ""
    ensures r.Failure? <==> host.osType == WINDOWS && ProgramFilesVariable(host.arch) !in host.env
  {
    if host.osType == WINDOWS then
      var variable := ProgramFilesVariable(host.arch);
      if variable in host.env then Success(Join(host.env[variable], WINDOWS_CHROME))
      else Failure(ProgramFilesUnset(variable))
    else if host.osType == LINUX then Success(LINUX_CHROME)
    else Success(MAC_CHROME)
  }

  /** The normalised path, or the error the source throws. `normalize` stands
      for `path.normalize`. */
  function GetChromePath(host: Host, normalize: string -> string): (r: Result<string, LaunchError>)
    ensures host.osType == LINUX ==> r == Success(normalize(LINUX_CHROME))
    ensures host.osType != LINUX && host.osType != WINDOWS ==> r == Success(normalize(MAC_CHROME))
    ensures host.osType == WINDOWS ==>
      var variable := ProgramFilesVariable(host.arch);
      r == if variable in host.env then Success(normalize(Join(host.env[variable], WINDOWS_CHROME)))
           else Failure(ProgramFilesUnset(variable))
    ensures !(r.Failure? && r.error.Unsupported?)
  {
    match BrowserPath(host)
    case Failure(e) => Failure(e)
    case Success(browserPath) =>
      if |browserPath| > 0 then Success(normalize(browserPath))
      else Failure(Unsupported(host.osType))
  }
}

=== FILE: comparison.dfy ===
/** `checkStory` and `createCompareImage` of index.js: each story of a batch is
    shot under the baseline origin and the candidate origin, and a side-by-side
    composite is appended to the shared `images` list only when the two
    screenshots are reported different. */
module Comparison {
  import opened Wrappers
  import opened StoryList

  /** The two origins: `CONSTANT_URL` (baseline) and `VARIABLE_URL` (candidate). */
  datatype Origins = Origins(constantUrl: string, variableUrl: string)

  /** The foreign collaborators, uninterpreted: `createScreenshot` as a
      deterministic map from URL to image, `looksSame` as its `equal` verdict,
      and `looksSame.createDiff` as the highlighted difference image. */
  datatype Tools<!Img> = Tools(
    capture: string -> Img,
    looksSame: (Img, Img) -> bool,
    createDiff: (Img, Img) -> Img)

  /** One image handed to `merge-img`, with its offsets. */
  datatype Panel<Img> = Panel(src: Img, offsetX: int, offsetY: int)

  datatype Margin = Margin(top: int, right: int, bottom: int, left: int)

  /** A composite, given by the layout descriptor `merge-img` receives. */
  datatype Composite<Img> = Composite(panels: seq<Panel<Img>>, margin: Margin)

  /** Gap between the panels and above them. */
  const GAP := 100
  /** Margin on every side of the composite. */
  const MARGIN := 40

  /** The composite of `createCompareImage(first, second, third)`: three panels
      in the order baseline, candidate, diff, all pushed down by the gap, the
      second and third also pushed right by it (the first keeps `merge-img`'s
      default offset 0), with the same margin on all four sides. */
  function CreateCompareImage<Img>(baseline: Img, candidate: Img, diff: Img): (c: Composite<Img>)
    ensures |c.panels| == 3
    ensures c.panels[0].src == baseline && c.panels[1].src == candidate && c.panels[2].src == diff
    ensures forall k :: 0 <= k < 3 ==> c.panels[k].offsetY == GAP
    ensures c.panels[0].offsetX == 0 && c.panels[1].offsetX == GAP && c.panels[2].offsetX == GAP
    ensures c.margin == Margin(MARGIN, MARGIN, MARGIN, MARGIN)
  {
    Composite(
      [Panel(baseline, 0, GAP), Panel(candidate, GAP, GAP), Panel(diff, GAP, GAP)],
      Margin(MARGIN, MARGIN, MARGIN, MARGIN))
  }

  /** `${CONSTANT_URL}?${story.url}`: the baseline origin, `?`, then the story's query. */
  function BaselineUrl(origins: Origins, story: StoryRef): (u: string)
    ensures |u| == |origins.constantUrl| + 1 + |story.url|
    ensures u[..|origins.constantUrl|] == origins.constantUrl && u[|origins.constantUrl|] == '?'
    ensures u[|origins.constantUrl| + 1..] == story.url
  {
    origins.constantUrl + "?" + story.url
  }

  /** `${VARIABLE_URL}?${story.url}`: the candidate origin, `?`, then the story's query. */
  function CandidateUrl(origins: Origins, story: StoryRef): (u: string)
    ensures |u| == |origins.variableUrl| + 1 + |story.url|
    ensures u[..|origins.variableUrl|] == origins.variableUrl && u[|origins.variableUrl|] == '?'
    ensures u[|origins.variableUrl| + 1..] == story.url
  {
    origins.variableUrl + "?" + story.url
  }

  /** `${story.kind}-${story.name}`: the kind, a dash, then the name. */
  function Label(story: StoryRef): (l: string)
    ensures |l| == |story.kind| + 1 + |story.name|
    ensures l[..|story.kind|] == story.kind && l[|story.kind|] == '-'
    ensures l[|story.kind| + 1..] == story.name
  {
    story.kind + "-" + story.name
  }

  /** The baseline and candidate URLs of a story differ only in their origin:
      after the origin and its `?` both carry the same query. */
  lemma UrlsShareQuery(origins: Origins, story: StoryRef)
    ensures BaselineUrl(origins, story)[|origins.constantUrl| + 1..]
         == CandidateUrl(origins, story)[|origins.variableUrl| + 1..]
  {
  }

  /** For an enumerated story whose kind and name are plain, the query both
      URLs carry after their origin and `?` reads back as that story's own
      kind and name. A browser takes the query from the URL's first `?` up to
      its first `#`; by QueryStartsAfterOrigin that is this query when the
      origin holds neither. */
  lemma UrlsSelectStory(origins: Origins, kind: string, name: string)
    requires Plain(kind) && Plain(name)
    ensures ParseQuery(BaselineUrl(origins, Record(kind, name))[|origins.constantUrl| + 1..]) == Some((kind, name))
    ensures ParseQuery(CandidateUrl(origins, Record(kind, name))[|origins.variableUrl| + 1..]) == Some((kind, name))
  {
    QueryRoundTrip(kind, name);
  }

  /** A browser takes the query from the URL's first `?` up to its first `#`:
      for an origin that holds no `?` or `#`, the query starts at the `?`
      placed right after the origin, and it runs to the end of the URL when
      the story's query holds no `#`. */
  lemma QueryStartsAfterOrigin(origins: Origins, story: StoryRef)
    ensures '?' !in origins.constantUrl && '#' !in origins.constantUrl ==>
      IndexOfAny(BaselineUrl(origins, story), {'?', '#'}) == |origins.constantUrl|
    ensures '?' !in origins.variableUrl && '#' !in origins.variableUrl ==>
      IndexOfAny(CandidateUrl(origins, story), {'?', '#'}) == |origins.variableUrl|
    ensures '#' !in story.url ==>
      IndexOfAny(BaselineUrl(origins, story)[|origins.constantUrl| + 1..], {'#'}) == |story.url|
    ensures '#' !in story.url ==>
      IndexOfAny(CandidateUrl(origins, story)[|origins.variableUrl| + 1..], {'#'}) == |story.url|
  {
    if '?' !in origins.constantUrl && '#' !in origins.constantUrl {
      FirstDelimiter(origins.constantUrl, "?" + story.url);
      assert BaselineUrl(origins, story) == origins.constantUrl + ("?" + story.url);
    }
    if '?' !in origins.variableUrl && '#' !in origins.variableUrl {
      FirstDelimiter(origins.variableUrl, "?" + story.url);
      assert CandidateUrl(origins, story) == origins.variableUrl + ("?" + story.url);
    }
  }

  /** In an origin free of `?` and `#` followed by `?`, the first `?` or `#`
      is the one right after the origin. */
  lemma FirstDelimiter(origin: string, tail: string)
    requires '?' !in origin && '#' !in origin
    requires tail != [] && tail[0] == '?'
    ensures IndexOfAny(origin + tail, {'?', '#'}) == |origin|
  {
    var s := origin + tail;
    assert s[|origin|] == '?';
    assert forall j :: 0 <= j < |origin| ==> s[j] == origin[j];
  }

  /** The two screenshots of a story are reported different. */
  predicate Differs<Img>(origins: Origins, tools: Tools<Img>, story: StoryRef)
  {
    !tools.looksSame(tools.capture(BaselineUrl(origins, story)), tools.capture(CandidateUrl(origins, story)))
  }

  /** What one story adds to `images`: a composite exactly when the
      screenshots differ, holding the baseline shot, the candidate shot and
      their diff in that order; nothing otherwise. */
  function Check<Img>(origins: Origins, tools: Tools<Img>, story: StoryRef): (r: Option<Composite<Img>>)
    ensures r.Some? <==> Differs(origins, tools, story)
    ensures r.Some? ==>
      var baseline := tools.capture(BaselineUrl(origins, story));
      var candidate := tools.capture(CandidateUrl(origins, story));
      |r.value.panels| == 3 && r.value.panels[0].src == baseline && r.value.panels[1].src == candidate &&
      r.value.panels[2].src == tools.createDiff(baseline, candidate)
  {
    var baseline := tools.capture(BaselineUrl(origins, story));
    var candidate := tools.capture(CandidateUrl(origins, story));
    if tools.looksSame(baseline, candidate) then None
    else Some(CreateCompareImage(baseline, candidate, tools.createDiff(baseline, candidate)))
  }

  /** The composites a batch adds, in batch order. */
  function Differing<Img>(origins: Origins, tools: Tools<Img>, batch: seq<StoryRef>): seq<Composite<Img>>
  {
    if batch == [] then []
    else
      var added := match Check(origins, tools, batch[|batch| - 1])
        case None => []
        case Some(img) => [img];
      Differing(origins, tools, batch[..|batch| - 1]) + added
  }

  /** At most one composite per story. */
  lemma {:induction false} DifferingBound<Img>(origins: Origins, tools: Tools<Img>, batch: seq<StoryRef>)
    ensures |Differing(origins, tools, batch)| <= |batch|
  {
    if batch != [] {
      DifferingBound(origins, tools, batch[..|batch| - 1]);
    }
  }

  /** Nothing is added exactly when every story of the batch is reported equal. */
  lemma {:induction false} DifferingEmpty<Img>(origins: Origins, tools: Tools<Img>, batch: seq<StoryRef>)
    ensures Differing(origins, tools, batch) == [] <==>
      forall i :: 0 <= i < |batch| ==> !Differs(origins, tools, batch[i])
  {
    if batch != [] {
      var init := batch[..|batch| - 1];
      DifferingEmpty(origins, tools, init);
      assert forall i :: 0 <= i < |init| ==> init[i] == batch[i];
    }
  }

  /** Every composite added comes from a story of the batch whose screenshots differ. */
  lemma {:induction false} DifferingSources<Img>(origins: Origins, tools: Tools<Img>, batch: seq<StoryRef>)
    ensures forall img :: img in Differing(origins, tools, batch) ==>
      exists i :: 0 <= i < |batch| && Differs(origins, tools, batch[i]) && Check(origins, tools, batch[i]) == Some(img)
  {
    if batch != [] {
      var init := batch[..|batch| - 1];
      DifferingSources(origins, tools, init);
      forall img | img in Differing(origins, tools, batch)
        ensures exists i :: 0 <= i < |batch| && Differs(origins, tools, batch[i]) && Check(origins, tools, batch[i]) == Some(img)
      {
        if img in Differing(origins, tools, init) {
          var i :| 0 <= i < |init| && Differs(origins, tools, init[i]) && Check(origins, tools, init[i]) == Some(img);
          assert batch[i] == init[i];
        } else {
          assert Check(origins, tools, batch[|batch| - 1]) == Some(img);
        }
      }
    }
  }

  /** Every story of the batch whose screenshots differ adds its composite. */
  lemma {:induction false} DifferingComplete<Img>(origins: Origins, tools: Tools<Img>, batch: seq<StoryRef>)
    ensures forall i :: 0 <= i < |batch| && Differs(origins, tools, batch[i]) ==>
      Check(origins, tools, batch[i]).Some? && Check(origins, tools, batch[i]).value in Differing(origins, tools, batch)
  {
    if batch != [] {
      var init := batch[..|batch| - 1];
      DifferingComplete(origins, tools, init);
      assert forall i :: 0 <= i < |init| ==> init[i] == batch[i];
    }
  }

  /** The positions of the batch whose screenshots differ. */
  ghost function DifferingPositions<Img>(origins: Origins, tools: Tools<Img>, batch: seq<StoryRef>): set<int>
  {
    set i | 0 <= i < |batch| && Differs(origins, tools, batch[i])
  }

  /** A batch adds exactly as many composites as it has differing stories. */
  lemma {:induction false} DifferingCount<Img>(origins: Origins, tools: Tools<Img>, batch: seq<StoryRef>)
    ensures |Differing(origins, tools, batch)| == |DifferingPositions(origins, tools, batch)|
  {
    if batch != [] {
      var n := |batch| - 1;
      var init := batch[..n];
      DifferingCount(origins, tools, init);
      var before := DifferingPositions(origins, tools, init);
      assert forall i :: 0 <= i < n ==> init[i] == batch[i];
      if Differs(origins, tools, batch[n]) {
        assert DifferingPositions(origins, tools, batch) == before + {n};
        assert n !in before;
      } else {
        assert DifferingPositions(origins, tools, batch) == before;
      }
    }
  }

  /** Checking two batches one after the other adds what checking them as one batch adds. */
  lemma {:induction false} DifferingAppend<Img>(origins: Origins, tools: Tools<Img>, x: seq<StoryRef>, y: seq<StoryRef>)
    ensures Differing(origins, tools, x + y) == Differing(origins, tools, x) + Differing(origins, tools, y)
  {
    if y == [] {
      assert x + y == x;
    } else {
      var yInit := y[..|y| - 1];
      DifferingAppend(origins, tools, x, yInit);
      assert (x + y)[..|x + y| - 1] == x + yInit;
      assert (x + y)[|x + y| - 1] == y[|y| - 1];
    }
  }

  /** When both origins are the same URL and `looksSame` calls every
      screenshot equal to itself, no story adds anything. */
  lemma SameOriginNoImages<Img>(origins: Origins, tools: Tools<Img>, batch: seq<StoryRef>)
    requires origins.constantUrl == origins.variableUrl
    requires forall url :: tools.looksSame(tools.capture(url), tools.capture(url))
    ensures Differing(origins, tools, batch) == []
  {
    forall i | 0 <= i < |batch|
      ensures !Differs(origins, tools, batch[i])
    {
      assert BaselineUrl(origins, batch[i]) == CandidateUrl(origins, batch[i]);
    }
    DifferingEmpty(origins, tools, batch);
  }

  /** The module-level `images` array, shared by every batch. */
  class Collector<Img> {
    var images: seq<Composite<Img>>

    constructor ()
      ensures images == []
    {
      images := [];
    }

    /** `checkStory(arrDetails, context)`: the stories of one batch, one after
        another in batch order. Only `images` changes, and only by appending. */
    method CheckStory(batch: seq<StoryRef>, origins: Origins, tools: Tools<Img>)
      modifies this
      ensures images == old(images) + Differing(origins, tools, batch)
    {
      for j := 0 to |batch|
        invariant images == old(images) + Differing(origins, tools, batch[..j])
      {
        var story := batch[j];
        var constantUrl := BaselineUrl(origins, story);
        var variableUrl := CandidateUrl(origins, story);
        var constantShot, variableShot := tools.capture(constantUrl), tools.capture(variableUrl);
        if !tools.looksSame(constantShot, variableShot) {
          var buffer := tools.createDiff(constantShot, variableShot);
          var img := CreateCompareImage(constantShot, variableShot, buffer);
          images := images + [img];
        }
        assert batch[..j + 1][..j] == batch[..j];
      }
      assert batch[..|batch|] == batch;
    }
  }
}

=== FILE: orchestration.dfy ===
/** The top-level flow of index.js: enumerate the stories, cut them into
    batches of ten, check every batch, and build a report only when some
    story differed. */
module Orchestration {
  import opened Wrappers
  import opened Batching
  import opened StoryList
  import opened Comparison

  /** Stories per batch. */
  const BATCH_SIZE := 10

  /** `combineImage(images, {direction: true})`: the composites stacked top to bottom, in order. */
  datatype Report<Img> = Report(rows: seq<Composite<Img>>)

  /** The `images.length > 0` gate: a report exists exactly when some composite was collected. */
  function AssembleReport<Img>(images: seq<Composite<Img>>): (r: Option<Report<Img>>)
    ensures r.None? <==> images == []
    ensures r.Some? ==> r.value.rows == images
  {
    if |images| > 0 then Some(Report(images)) else None
  }

  /** `chunk(storyDetails, 10)`: the batches the stories are checked in.
      Each holds one to ten stories, and joined in order they are the story list. */
  function Batches(stories: seq<StoryRef>): (r: seq<seq<StoryRef>>)
    ensures forall i :: 0 <= i < |r| ==> 1 <= |r[i]| <= BATCH_SIZE
    ensures Concat(r) == stories
  {
    ChunkSizes(stories, BATCH_SIZE);
    ChunkConcat(stories, BATCH_SIZE);
    Chunk(stories, BATCH_SIZE)
  }

  /** Every batch but the last holds ten stories, the last one to ten, and
      together they are the story list in order. */
  lemma BatchesOfTen(stories: seq<StoryRef>)
    ensures forall i :: 0 <= i < |Batches(stories)| - 1 ==> |Batches(stories)[i]| == BATCH_SIZE
    ensures Batches(stories) != [] ==> 1 <= |Batches(stories)[|Batches(stories)| - 1]| <= BATCH_SIZE
    ensures Concat(Batches(stories)) == stories
  {
    ChunkSizes(stories, BATCH_SIZE);
    ChunkConcat(stories, BATCH_SIZE);
  }

  /** Checking the first `i + 1` batches adds what checking the first `i`
      adds, followed by what batch `i` adds. */
  lemma CheckedPrefix<Img>(origins: Origins, tools: Tools<Img>, batches: seq<seq<StoryRef>>, i: nat)
    requires i < |batches|
    ensures Differing(origins, tools, Concat(batches[..i + 1]))
         == Differing(origins, tools, Concat(batches[..i])) + Differing(origins, tools, batches[i])
  {
    assert batches[..i + 1][..i] == batches[..i];
    DifferingAppend(origins, tools, Concat(batches[..i]), batches[i]);
  }

  /** The async main function from story enumeration to the report handed to
      the upload, with the batches checked one after another in batch order.
      The report holds the composites of exactly the differing stories. */
  method Run<Img>(registry: seq<KindEntry>, origins: Origins, tools: Tools<Img>) returns (report: Option<Report<Img>>)
    ensures report == AssembleReport(Differing(origins, tools, Flatten(registry)))
  {
    var storyDetails := GetStories(registry);
    var storyBreakdown := Batches(storyDetails);
    var collector := new Collector<Img>();
    for i := 0 to |storyBreakdown|
      invariant collector.images == Differing(origins, tools, Concat(storyBreakdown[..i]))
    {
      collector.CheckStory(storyBreakdown[i], origins, tools);
      CheckedPrefix(origins, tools, storyBreakdown, i);
    }
    assert storyBreakdown[..|storyBreakdown|] == storyBreakdown;
    if |collector.images| > 0 {
      report := Some(Report(collector.images));
    } else {
      report := None;
    }
  }

  /** A report is built, and uploaded, exactly when some story's screenshots
      differ; it never holds more composites than there are stories. */
  lemma ReportWhenSomeDiffer<Img>(registry: seq<KindEntry>, origins: Origins, tools: Tools<Img>)
    ensures var stories := Flatten(registry);
      var report := AssembleReport(Differing(origins, tools, stories));
      && (report.Some? <==> exists i :: 0 <= i < |stories| && Differs(origins, tools, stories[i]))
      && (report.Some? ==> |report.value.rows| <= TotalStories(registry))
  {
    var stories := Flatten(registry);
    DifferingEmpty(origins, tools, stories);
    DifferingBound(origins, tools, stories);
    FlattenLength(registry);
  }
}

=== FILE: scrolling.dfy ===
/** The stepping of `autoScroll` in lib/index.js: every tick scrolls the page
    by a fixed distance and adds it to a running total, and the ticking stops
    at the first tick whose total reaches the document height. */
module Scrolling {
  import opened Arith

  /** Pixels scrolled per tick. */
  const DISTANCE := 100

  /** The interval callback run until it clears its timer. The document height
      is taken as fixed for the whole scroll; the 100 ms timer and the
      `window.scrollBy` side effect are not modelled. Returns the final
      `totalHeight` and the number of ticks run. */
  method AutoScroll(scrollHeight: int) returns (totalHeight: int, ticks: nat)
    ensures ticks >= 1 && totalHeight == ticks * DISTANCE
    ensures totalHeight >= scrollHeight
    ensures forall k :: 1 <= k < ticks ==> k * DISTANCE < scrollHeight
    ensures scrollHeight > 0 ==> totalHeight < scrollHeight + DISTANCE
    ensures ticks == if scrollHeight <= 0 then 1 else CeilDiv(scrollHeight, DISTANCE)
  {
    totalHeight, ticks := 0, 0;
    var done := false;
    while !done
      invariant totalHeight == ticks * DISTANCE
      invariant done ==> ticks >= 1 && totalHeight >= scrollHeight
      invariant forall k :: 1 <= k < ticks ==> k * DISTANCE < scrollHeight
      invariant !done ==> totalHeight == 0 || totalHeight < scrollHeight
      decreases if done then 0 else Max(scrollHeight - totalHeight, 0) + 1
    {
      totalHeight := totalHeight + DISTANCE;
      ticks := ticks + 1;
      done := totalHeight >= scrollHeight;
    }
    if scrollHeight > 0 {
      CeilDivUnique(scrollHeight, DISTANCE, ticks);
    }
  }
}

=== FILE: stories.dfy ===
/** The flattening done by `getStories` in lib/index.js: the catalog's
    registry (a list of kinds, each with its stories) becomes one flat list of
    story records that carry the query string selecting them. */
module StoryList {
  import opened Wrappers

  /** One story record `{url, kind, name}`; `url` is a query string, not a full URL. */
  datatype StoryRef = StoryRef(url: string, kind: string, name: string)

  /** One entry of the registry: a kind and the names of its stories, in order. */
  datatype KindEntry = KindEntry(kind: string, names: seq<string>)

  const KIND_KEY := "selectedKind="
  const STORY_KEY := "&selectedStory="

  /** The template literal `selectedKind=${kind}&selectedStory=${name}`:
      the two keys with kind and name pasted in unescaped. */
  function Query(kind: string, name: string): (q: string)
    ensures |q| == |KIND_KEY| + |kind| + |STORY_KEY| + |name|
    ensures q[..|KIND_KEY|] == KIND_KEY
    ensures q[|KIND_KEY|..|KIND_KEY| + |kind|] == kind
    ensures q[|KIND_KEY| + |kind|..|KIND_KEY| + |kind| + |STORY_KEY|] == STORY_KEY
    ensures q[|KIND_KEY| + |kind| + |STORY_KEY|..] == name
  {
    KIND_KEY + kind + STORY_KEY + name
  }

  /** The record pushed for one story of one kind: kind and name copied
      unchanged, and the query that selects them. */
  function Record(kind: string, name: string): (r: StoryRef)
    ensures r.kind == kind && r.name == name && r.url == Query(kind, name)
  {
    StoryRef(Query(kind, name), kind, name)
  }

  /** The records of one kind, in story order. */
  function Records(kind: string, names: seq<string>): seq<StoryRef>
  {
    if names == [] then [] else Records(kind, names[..|names| - 1]) + [Record(kind, names[|names| - 1])]
  }

  /** The records of the whole registry: kind after kind, each kind's stories in order. */
  function Flatten(registry: seq<KindEntry>): seq<StoryRef>
  {
    if registry == [] then []
    else
      var last := registry[|registry| - 1];
      Flatten(registry[..|registry| - 1]) + Records(last.kind, last.names)
  }

  /** The number of stories in the registry, summed kind by kind. */
  function TotalStories(registry: seq<KindEntry>): nat
  {
    if registry == [] then 0
    else TotalStories(registry[..|registry| - 1]) + |registry[|registry| - 1].names|
  }

  /** `let all = []; stories.forEach(story => story.stories.forEach(view => all.push(...)))`.
      The registry is what `page.evaluate` returned; navigation is not modelled. */
  method GetStories(registry: seq<KindEntry>) returns (all: seq<StoryRef>)
    ensures all == Flatten(registry)
  {
    all := [];
    for i := 0 to |registry|
      invariant all == Flatten(registry[..i])
    {
      var kind := registry[i].kind;
      var names := registry[i].names;
      for j := 0 to |names|
        invariant all == Flatten(registry[..i]) + Records(kind, names[..j])
      {
        var name := names[j];
        all := all + [StoryRef(Query(kind, name), kind, name)];
        assert names[..j + 1][..j] == names[..j];
      }
      assert names[..|names|] == names;
      assert registry[..i + 1][..i] == registry[..i];
    }
    assert registry[..|registry|] == registry;
  }

  /** A kind contributes one record per story, each copying kind and name. */
  lemma {:induction false} RecordsAt(kind: string, names: seq<string>)
    ensures |Records(kind, names)| == |names|
    ensures forall j :: 0 <= j < |names| ==> Records(kind, names)[j] == Record(kind, names[j])
  {
    if names != [] {
      RecordsAt(kind, names[..|names| - 1]);
    }
  }

  /** The flat list holds as many records as the registry holds stories. */
  lemma {:induction false} FlattenLength(registry: seq<KindEntry>)
    ensures |Flatten(registry)| == TotalStories(registry)
  {
    if registry != [] {
      var last := registry[|registry| - 1];
      FlattenLength(registry[..|registry| - 1]);
      RecordsAt(last.kind, last.names);
    }
  }

  /** The records of the first `m` kinds come first, in the same order. */
  lemma {:induction false} FlattenPrefix(registry: seq<KindEntry>, m: nat)
    requires m <= |registry|
    ensures Flatten(registry[..m]) <= Flatten(registry)
  {
    if m < |registry| {
      var init := registry[..|registry| - 1];
      FlattenPrefix(init, m);
      assert init[..m] == registry[..m];
    } else {
      assert registry[..m] == registry;
    }
  }

  /** Kind-major order: story `j` of kind `i` sits at position
      (stories of the kinds before `i`) + `j`, with its kind, its name and its
      query string. */
  lemma FlattenAt(registry: seq<KindEntry>, i: nat, j: nat)
    requires i < |registry| && j < |registry[i].names|
    ensures TotalStories(registry[..i]) + j < |Flatten(registry)|
    ensures Flatten(registry)[TotalStories(registry[..i]) + j] == Record(registry[i].kind, registry[i].names[j])
  {
    var upTo := registry[..i + 1];
    assert upTo[..i] == registry[..i];
    FlattenPrefix(registry, i + 1);
    FlattenLength(registry[..i]);
    RecordsAt(registry[i].kind, registry[i].names);
  }

  /** Every flat record copies a kind and one of its story names from the
      registry and carries that pair's query string. */
  lemma {:induction false} FlattenWellFormed(registry: seq<KindEntry>)
    ensures forall s :: s in Flatten(registry) ==>
      s.url == Query(s.kind, s.name) &&
      exists i :: 0 <= i < |registry| && registry[i].kind == s.kind && s.name in registry[i].names
  {
    if registry != [] {
      var init, last := registry[..|registry| - 1], registry[|registry| - 1];
      FlattenWellFormed(init);
      RecordsAt(last.kind, last.names);
      forall s | s in Flatten(registry)
        ensures s.url == Query(s.kind, s.name)
        ensures exists i :: 0 <= i < |registry| && registry[i].kind == s.kind && s.name in registry[i].names
      {
        if s in Flatten(init) {
          var i :| 0 <= i < |init| && init[i].kind == s.kind && s.name in init[i].names;
          assert registry[i] == init[i];
        } else {
          var j :| 0 <= j < |last.names| && Records(last.kind, last.names)[j] == s;
          assert registry[|registry| - 1] == last;
        }
      }
    }
  }

  /** Characters with a meaning in a query string: `&` separates parameters,
      `#` starts the fragment, `+` decodes to a space and `%` starts an escape. */
  const SPECIAL: set<char> := {'&', '#', '+', '%'}

  /** The parameter ends at the next `&`, or at `#` where the fragment begins. */
  const STOPS: set<char> := {'&', '#'}

  /** A kind or name that reads back unchanged from a query string. */
  predicate Plain(s: string)
  {
    forall i :: 0 <= i < |s| ==> s[i] !in SPECIAL
  }

  /** Position of the first character of `s` in `stops`, or `|s|` when there is none. */
  function IndexOfAny(s: string, stops: set<char>): (k: nat)
    ensures k <= |s|
    ensures forall j :: 0 <= j < k ==> s[j] !in stops
    ensures k < |s| ==> s[k] in stops
  {
    if s == [] then 0 else if s[0] in stops then 0 else 1 + IndexOfAny(s[1..], stops)
  }

  /** Form decoding of `+` as a space; percent escapes are not decoded. */
  function DecodePlus(s: string): (r: string)
    ensures |r| == |s|
    ensures forall i :: 0 <= i < |s| ==> r[i] == (if s[i] == '+' then ' ' else s[i])
  {
    seq(|s|, i requires 0 <= i < |s| => if s[i] == '+' then ' ' else s[i])
  }

  /** How the catalog reads a query string: after `selectedKind=`, the kind
      runs up to the first `&` or `#`, and the `&` must open
      `&selectedStory=`; the story name runs from there up to the next `&`
      or `#`. Both values have `+` decoded as a space. */
  function ParseQuery(q: string): Option<(string, string)>
  {
    if |q| < |KIND_KEY| || q[..|KIND_KEY|] != KIND_KEY then None
    else
      var rest := q[|KIND_KEY|..];
      var k := IndexOfAny(rest, STOPS);
      if |rest| - k < |STORY_KEY| || rest[k..k + |STORY_KEY|] != STORY_KEY then None
      else
        var tail := rest[k + |STORY_KEY|..];
        Some((DecodePlus(rest[..k]), DecodePlus(tail[..IndexOfAny(tail, STOPS)])))
  }

  /** A story's query string selects exactly that kind and name, provided
      neither holds a character the query syntax gives a meaning (kind and
      name are interpolated without escaping). */
  lemma QueryRoundTrip(kind: string, name: string)
    requires Plain(kind) && Plain(name)
    ensures ParseQuery(Query(kind, name)) == Some((kind, name))
  {
    NameCutAtFirstStop(kind, name);
    assert IndexOfAny(name, STOPS) == |name|;
    assert name[..|name|] == name;
    assert DecodePlus(name) == name;
  }

  /** With a plain kind, the name read back from a story's query is the name
      up to its first `&` or `#`, with `+` decoded: a name holding either is
      cut short, since nothing is escaped. */
  lemma NameCutAtFirstStop(kind: string, name: string)
    requires Plain(kind)
    ensures ParseQuery(Query(kind, name)) == Some((kind, DecodePlus(name[..IndexOfAny(name, STOPS)])))
  {
    var q := Query(kind, name);
    var rest := q[|KIND_KEY|..];
    assert rest == kind + STORY_KEY + name;
    assert forall j :: 0 <= j < |kind| ==> rest[j] == kind[j];
    assert rest[|kind|] == '&';
    var k := IndexOfAny(rest, STOPS);
    assert k == |kind|;
    assert rest[k..k + |STORY_KEY|] == STORY_KEY;
    assert rest[..k] == kind;
    var tail := rest[k + |STORY_KEY|..];
    assert tail == name;
    assert DecodePlus(kind) == kind;
  }

  /** An instance of `NameCutAtFirstStop`: the name "Tom & Jerry" reads back as "Tom ". */
  lemma QueryNameTruncated(kind: string, name: string)
    requires kind == "Button" && name == "Tom & Jerry"
    ensures ParseQuery(Query(kind, name)) == Some((kind, "Tom "))
  {
    TomAndJerryCut();
    NameCutAtFirstStop(kind, name);
  }

  /** The literal facts `QueryNameTruncated` needs: `Button` is plain, and
      "Tom & Jerry" is cut at its `&`, leaving "Tom ". */
  lemma TomAndJerryCut()
    ensures Plain("Button")
    ensures DecodePlus("Tom & Jerry"[..IndexOfAny("Tom & Jerry", STOPS)]) == "Tom "
  {
    var name := "Tom & Jerry";
    assert name[4] == '&';
    assert IndexOfAny(name, STOPS) == 4;
    assert DecodePlus(name[..4]) == "Tom ";
  }

  /** Without that proviso two different stories can share one query string. */
  lemma QueryCollision()
    ensures Query("a&selectedStory=b", "c") == Query("a", "b&selectedStory=c")
  {
  }
}

=== FILE: wrappers.dfy ===
/** An optional value and a success-or-error result, shared by the model. */
module Wrappers {

  /** A value that may be absent. */
  datatype Option<+T> = None | Some(value: T)

  /** Either a successful value or an error. */
  datatype Result<+R, +E> = Success(value: R) | Failure(error: E)
}
